=== FILE: README.md ===
# Chat session state: a Dafny model

This project models the session-state core of a browser chat client that talks to a remote
language-model API. The core is the Redux slice `chatSessionsSlice` and the two components that drive it:

- the chat panel's send workflow, its edit-and-resend workflow and its startup effect;
- the sidebar's title search, model switcher and session buttons.

A `State` holds an ordered list of sessions (`id`, `title`, `messages`), the active session id (or
null) and the selected model. Every reducer is a pure function on `State`. `ChatStore.Dispatch` runs a
reducer. When the reducer reaches its `saveToLocalStorage` call, `Dispatch` also overwrites the
persisted snapshot, an `Option<State>` field of `Store` that is `None` when storage holds nothing loadable.

The remote completion is the parameter `ask: string -> Completion`, where
`Completion = Success(reply) | Failure`. Each workflow reports the prompt it handed to `ask`.
`crypto.randomUUID()` becomes an id supplied by the caller. Lemmas that need a fresh id say so in
their `requires`.

Files and modules:

- `optional.dfy` (`Optional`): `Option`, standing for `T | null`.
- `js_text.dfy` (`JsText`): `trim` (over the full ECMAScript white-space set), ASCII `toLowerCase`, and `includes`.
- `js_array.dfy` (`JsArray`): `Array.prototype.filter` and its laws.
- `chat_sessions_slice.dfy` (`ChatSessionsSlice`): the types, the reducers, the well-formedness invariant and the reducer laws.
- `chat_store.dfy` (`ChatStore`): the actions, `Dispatch`, the persisted snapshot and the startup state.
- `chat_workflows.dfy` (`ChatWorkflows`): `sendMessage`, edit-and-resend and the startup effect.
- `app_sidebar.dfy` (`AppSidebar`): the search filter, model switch, session click and delete, and the displayed title.

Points where the code behaves in a way that is easy to misread:

- **Title length.** The code cuts a first message at 30 characters. "Hello there, I need help with X" is 31 characters long, so its session is titled "Hello there, I need help with ..." (`ChatWorkflows.LongFirstMessage`).
- **Default state.** The default state has a null active id, so the startup effect adds a second session. A first start with empty storage therefore ends with two sessions (`ChatWorkflows.FirstStartHasTwoSessions`).
- **Startup effect reruns.** The effect depends on `activeSessionId`, so it runs again whenever the pointer becomes null or empty, for instance after deleting the last session; `ChatWorkflows.Startup` is one such run.
- **Title rewrites.** The code titles the active session whenever it shows no messages, so a send after `resetActiveSession` titles the session again (`ChatWorkflows.ResetThenSendRetitles`).
- **Model id.** The completion call receives only the prompt; the selected model is not passed (`ChatWorkflows.SendIgnoresModel`, `ChatWorkflows.ResendIgnoresModel`).
- **Falsy ids.** `!activeSessionId` is JavaScript truthiness, so the empty string blocks a send just as null does (`ChatWorkflows.Truthy`).
- **Delete repair.** After deleting the active session, `sessions[0]?.id || null` turns an empty first id into null. The pointer is "null iff no session remains" only when ids are non-empty.

## Model

| member | source | states |
|---|---|---|
| `JsText.Trim` | src/components/Chat.tsx:59-61 | the trimmed text starts and ends with a non-white-space character, or is empty |
| `JsText.TrimIsSlice` | src/components/Chat.tsx:61 | the trimmed text is a contiguous slice of the input, and everything cut off at either end is white space |
| `JsText.TrimEmptyIffBlank` | src/components/Chat.tsx:59 | the send guard `!input.trim()` fires exactly when the input is all white space |
| `JsText.TrimIdempotent` | src/components/Chat.tsx:61 | trimming an already trimmed message changes nothing |
| `JsText.ToLower` | src/components/app-sidebar.tsx:48 | same length, each character lowercased (ASCII letters only) |
| `JsText.Includes` | src/components/app-sidebar.tsx:48 | a string includes only needles no longer than itself (with `JsText.IncludesIffOccurs`, exactly the substrings) |
| `JsText.IncludesIffOccurs` | src/components/app-sidebar.tsx:48 | `includes` holds iff the needle is a prefix of some suffix of the haystack |
| `JsArray.Filter` | src/components/app-sidebar.tsx:47-49 | the result keeps only elements passing the test, each drawn from the input, and every passing element of the input appears in it |
| `JsArray.FilterMultiplicity` | src/features/chatSessionsSlice.ts:132 | a passing element keeps all its occurrences; a failing element keeps none |
| `JsArray.FilterConcat` | src/features/chatSessionsSlice.ts:132 | filtering distributes over concatenation, so order is preserved |
| `ChatSessionsSlice.FindSession` | src/features/chatSessionsSlice.ts:71-73 | `find` yields the first session with the id, and yields nothing exactly when no session has it |
| `ChatSessionsSlice.FindSessionIsFirst` | src/features/chatSessionsSlice.ts:71-73 | whenever some session is the first with the id, `find` yields exactly that session |
| `ChatSessionsSlice.ActiveIndex` | src/features/chatSessionsSlice.ts:80-82 | the active session is found exactly when the pointer is non-null and some session has that id, and then it is a session with that id |
| `ChatSessionsSlice.CanUpdateMessage` | src/features/chatSessionsSlice.ts:121-122 | the edit guard fails for an unknown session or a negative index, and otherwise holds exactly when the index is within the first matching session's messages |
| `ChatSessionsSlice.DefaultState` | src/features/chatSessionsSlice.ts:36-46 | the fallback state is well formed: one "New Chat" session with the given id and no messages, a null pointer and the default model |
| `ChatSessionsSlice.AddSession` | src/features/chatSessionsSlice.ts:52-62 | a new empty "New Chat" session is put in front of the unchanged list, it becomes active, and the model is kept |
| `ChatSessionsSlice.SetActiveSession` | src/features/chatSessionsSlice.ts:63-66 | the pointer becomes the given id whether or not it exists; sessions and model are untouched |
| `ChatSessionsSlice.AddMessageToSession` | src/features/chatSessionsSlice.ts:67-78 | only the first session with the id grows, by the message at the end; id, title, other sessions, pointer and model are kept; an unknown id is a no-op |
| `ChatSessionsSlice.ResetActiveSession` | src/features/chatSessionsSlice.ts:79-87 | the active session's messages become empty and its id and title are kept; with a null or dangling pointer nothing changes |
| `ChatSessionsSlice.ClearAllSessions` | src/features/chatSessionsSlice.ts:88-99 | exactly one new empty "New Chat" session remains, it is active, and the model is kept |
| `ChatSessionsSlice.RenameSession` | src/features/chatSessionsSlice.ts:100-111 | only the first matching session's title changes; an unknown id is a no-op |
| `ChatSessionsSlice.UpdateSessionMessage` | src/features/chatSessionsSlice.ts:112-126 | only the content of message `i` changes; its role, the message count, the other messages and the other sessions are kept; a missing session or out-of-range index is a no-op |
| `ChatSessionsSlice.SetActiveModel` | src/features/chatSessionsSlice.ts:127-130 | the model is overwritten unchecked; sessions and pointer are kept |
| `ChatSessionsSlice.DeleteSession` | src/features/chatSessionsSlice.ts:131-137 | no session with the id remains; a deleted active pointer moves to the first remaining id or null; any other pointer is kept; the pointer never names the deleted id |
| `ChatSessionsSlice.OnlySessionChangedKeepsWellFormed` | src/features/chatSessionsSlice.ts:67-126 | editing one session's title or messages keeps ids unique and the pointer valid |
| `ChatSessionsSlice.AddSessionKeepsWellFormed` | src/features/chatSessionsSlice.ts:52-62 | with a fresh id, adding a session keeps ids unique and the pointer valid |
| `ChatSessionsSlice.DeleteSessionKeepsWellFormed` | src/features/chatSessionsSlice.ts:131-137 | deleting keeps ids unique and leaves the pointer null or on an existing session |
| `ChatSessionsSlice.DeleteActiveSession` | src/features/chatSessionsSlice.ts:133-135 | after deleting the active session, the pointer is null iff no session remains, else it is the first remaining session's id (ids non-empty) |
| `ChatSessionsSlice.DeleteSessionKeepsOthers` | src/features/chatSessionsSlice.ts:132 | every session with another id survives as often as it occurred; sessions with the id vanish |
| `ChatSessionsSlice.DeleteSessionIdempotent` | src/features/chatSessionsSlice.ts:131-137 | deleting twice equals deleting once |
| `ChatSessionsSlice.AddThenDeleteSession` | src/features/chatSessionsSlice.ts:52-62 | deleting a session just added under a fresh id restores the original list |
| `ChatSessionsSlice.UpdateSessionMessageUndo` | src/features/chatSessionsSlice.ts:112-126 | writing the old content back after an edit restores the whole state |
| `ChatSessionsSlice.RenameSessionUndo` | src/features/chatSessionsSlice.ts:100-111 | restoring the old title after a rename restores the whole state |
| `ChatStore.Initial` | src/features/chatSessionsSlice.ts:36-46 | a loaded state is used as is and matches storage; otherwise the state is one "New Chat" session with no messages, no active id and the default model, and nothing is saved |
| `ChatStore.Saves` | src/features/chatSessionsSlice.ts:72-125 | only `addMessageToSession`, `resetActiveSession`, `renameSession` and `updateSessionMessage` can skip their save; each saves exactly when its `if (session)` guard passes, and when it skips the state is unchanged |
| `ChatStore.Reduce` | src/features/chatSessionsSlice.ts:48-147 | each action runs its reducer: only `setActiveModel` changes the model, and it leaves sessions and pointer alone; `setActiveSession` keeps the sessions; the four session edits keep the list's length, ids and pointer |
| `ChatStore.Dispatch` | src/features/chatSessionsSlice.ts:30-34 | the new state is the reducer's result; after a reducer that reaches its save, the snapshot equals it; a reducer that skips the save leaves state and snapshot untouched |
| `ChatStore.DispatchAllKeepsInSync` | src/features/chatSessionsSlice.ts:61-136 | once storage holds the state, it holds it after any sequence of dispatches |
| `ChatStore.DispatchKeepsWellFormed` | src/features/chatSessionsSlice.ts:51-137 | every dispatch with fresh new ids and existing selected ids keeps ids unique and the pointer valid |
| `ChatStore.AddSessionsStack` | src/features/chatSessionsSlice.ts:52-62 | repeated `addSession` with distinct fresh ids keeps ids unique, stacks the sessions newest first, and leaves the last one active |
| `ChatWorkflows.Truthy` | src/components/Chat.tsx:53 | null and "" are falsy; any other id is truthy |
| `ChatWorkflows.ShownMessages` | src/components/Chat.tsx:41-42 | no active id or a dangling one shows no messages; otherwise the messages shown are exactly those of the first session with the active id |
| `ChatWorkflows.Preview` | src/components/Chat.tsx:71-72 | the title is at most 33 characters: the whole message up to 30 characters, else its first 30 characters followed by "..." |
| `ChatWorkflows.SendMessage` | src/components/Chat.tsx:58-97 | blank input or a falsy active id changes nothing and asks nothing; otherwise the prompt is the trimmed input, the input is cleared and loading ends false, and the active session ends with `[..., user(trimmed), ai(reply or "❌ Gagal menjawab.")]`, titled by the preview only if it was empty before; nothing else changes and storage matches |
| `ChatWorkflows.EditAndResend` | src/components/Chat.tsx:325-362 | with no edit open or no active id nothing changes; otherwise the prompt is the dialog text untrimmed, message `k` gets that content with its role kept, no message moves, exactly one ai message (reply or "❌ Gagal menjawab ulang.") is appended, and the dialog closes |
| `ChatWorkflows.Startup` | src/components/Chat.tsx:52-56 | with a null or empty active id a new "New Chat" session with no messages is added in front of the unchanged list and becomes active, the model is kept and storage matches; otherwise nothing changes |
| `ChatWorkflows.FirstStartHasTwoSessions` | src/features/chatSessionsSlice.ts:36-46 | a first start with empty storage ends with the effect's session active and the default session behind it |
| `ChatWorkflows.SendIgnoresModel` | src/components/Chat.tsx:80 | the selected model changes neither the prompt nor the resulting sessions of a send |
| `ChatWorkflows.ResendIgnoresModel` | src/components/Chat.tsx:341 | the selected model changes neither the prompt nor the resulting sessions of a resend |
| `ChatWorkflows.TitleSetOnce` | src/components/Chat.tsx:70-74 | after the first send titles an empty session, a second send keeps that title |
| `ChatWorkflows.ResetThenSendRetitles` | src/components/Chat.tsx:70-74 | after the active session is reset, the next send titles it again |
| `ChatWorkflows.FirstSendToEmptySession` | src/components/Chat.tsx:58-97 | a send to a lone empty session leaves exactly `[user, ai]` in it, titled by the preview |
| `ChatWorkflows.LongFirstMessage` | src/components/Chat.tsx:70-74 | "Hello there, I need help with X" yields the title "Hello there, I need help with ..." and the messages user then ai |
| `ChatWorkflows.FailedSendAppendsFallback` | src/components/Chat.tsx:87-96 | a failed completion appends the fallback ai message, two messages are added in all, and loading ends false |
| `AppSidebar.FilteredSessions` | src/components/app-sidebar.tsx:47-49 | each listed session matches the term case-insensitively and comes from the list; each matching session is listed |
| `AppSidebar.FilteredMultiplicity` | src/components/app-sidebar.tsx:47-49 | each matching session is listed as often as it occurs; no other session is listed |
| `AppSidebar.FilteredKeepsOrder` | src/components/app-sidebar.tsx:47-49 | the search never reorders sessions |
| `AppSidebar.EmptySearchKeepsAll` | src/components/app-sidebar.tsx:47-49 | an empty term lists every session |
| `AppSidebar.SearchIgnoresTermCase` | src/components/app-sidebar.tsx:48 | lowercasing the term changes nothing |
| `AppSidebar.SwitchModel` | src/components/app-sidebar.tsx:72-75 | the model becomes the chosen value; a new empty "New Chat" session is in front and active; storage matches |
| `AppSidebar.DefaultModelOnMenu` | src/components/app-sidebar.tsx:55-69 | the model a fresh state starts with is one of the six menu entries |
| `AppSidebar.MenuSwitchStaysOnMenu` | src/components/app-sidebar.tsx:55-75 | after picking any menu entry, the selected model is one the menu offers |
| `AppSidebar.SwitchModelKeepsWellFormed` | src/components/app-sidebar.tsx:72-75 | switching model with a fresh id keeps ids unique and the pointer valid |
| `AppSidebar.SelectListed` | src/components/app-sidebar.tsx:87-93 | clicking a listed session makes its id active, and that id names an existing session; sessions and model are kept |
| `AppSidebar.SelectListedKeepsWellFormed` | src/components/app-sidebar.tsx:93 | clicking a listed session keeps the state well formed |
| `AppSidebar.DeleteListed` | src/components/app-sidebar.tsx:119-121 | confirming a delete runs `deleteSession` on the listed id: no session with that id remains, the pointer does not name it, and storage matches |
| `AppSidebar.DisplayTitle` | src/components/app-sidebar.tsx:98 | the label is never empty: it is the title itself exactly when the title is non-empty, else "Chat Baru" |

## Left out

- Storage I/O: `loadFromLocalStorage` and `saveToLocalStorage` are not modelled. This covers JSON (de)serialisation, write failures, and the unchecked `as ChatState` cast of whatever parses. Loading is an `Option<State>` input, and saving is "snapshot := state".
- `crypto.randomUUID`: ids are caller-supplied. Freshness is a precondition of the lemmas that need it.
- `src/lib/api.ts`: the network call is out of scope. It becomes the `ask` parameter, and its hard-coded model id is not modelled.
- `resetChatState`: it touches storage directly and is not among the exported actions.
- The intermediate `loading = true` state and overlapping sends. Each workflow is one atomic step with a given outcome. The Enter key calls `sendMessage` even while the send button is disabled, so overlapping sends are possible in the source, but they are not modelled.
- React rendering, markdown, animations, clipboard, the share button, the textarea caret and Ctrl+Enter handling, and the theme.
- The story feature (`StoryForm`, `StoryOutput`) and the UI wiring (`App`, `store`, layout, settings menu, version switcher). The switcher's menu entries are kept, as `AppSidebar.Models`.
- `JsText.ToLower`: lowercases ASCII letters only. Full Unicode case mapping is not modelled.
- `ChatWorkflows.Preview`: lengths count Dafny characters. JavaScript counts UTF-16 code units, so text outside the Basic Multilingual Plane is cut differently.
- `ChatSessionsSlice.UpdateSessionMessage`: the index is an integer. Non-integer JavaScript numbers, which also read `undefined` and are no-ops, are not modelled.
- `ChatSessionsSlice.DeleteActiveSession`: the "null iff none remain" law is stated only for non-empty ids. The general rule, including the empty-id case, is in `ChatSessionsSlice.DeleteSession`.
- `AppSidebar.SelectListed`: stated only for an index into the listed sessions, since the sidebar can only click a listed session.

=== FILE: app_sidebar.dfy ===
/**
 * The sidebar: the title search over the session list, the model switcher, the session buttons and
 * the title shown for each of them.
 */
module AppSidebar {
  import opened Optional
  import opened JsText
  import opened JsArray
  import S = ChatSessionsSlice
  import opened ChatStore

  /** One entry of the model menu. */
  datatype ModelOption = ModelOption(name: string, value: string)

  /** The models the switcher offers, in menu order. */
  const Models: seq<ModelOption> := [
    ModelOption("Claude 3.7", "anthropic/claude-3.7-sonnet:beta"),
    ModelOption("Mistral 24B", "mistralai/mistral-small-3.2-24b-instruct:free"),
    ModelOption("Gemini 2.5", "google/gemini-2.5-flash-lite-preview-06-17"),
    ModelOption("GPT-4.1", "openai/gpt-4.1"),
    ModelOption("Grok 3", "x-ai/grok-3-mini"),
    ModelOption("Kimi 72B", "moonshotai/kimi-dev-72b:free")
  ]

  const UntitledLabel: string := "Chat Baru"

  /** Case-insensitive title search: the lowercased title includes the lowercased term. */
  predicate Matches(session: S.Session, term: string)
  {
    Includes(ToLower(session.title), ToLower(term))
  }

  function MatchesTerm(term: string): S.Session -> bool
  {
    (session: S.Session) => Matches(session, term)
  }

  /** `filteredSessions`: the sessions whose title matches the term, in list order. */
  function FilteredSessions(sessions: seq<S.Session>, term: string): (r: seq<S.Session>)
    ensures |r| <= |sessions|
    ensures forall k :: 0 <= k < |r| ==> Matches(r[k], term) && r[k] in sessions
    ensures forall k :: 0 <= k < |sessions| && Matches(sessions[k], term) ==> sessions[k] in r
  {
    Filter(MatchesTerm(term), sessions)
  }

  /** Each matching session is listed as often as it occurs; no other session is listed. */
  lemma FilteredMultiplicity(sessions: seq<S.Session>, term: string, s: S.Session)
    ensures multiset(FilteredSessions(sessions, term))[s] == if Matches(s, term) then multiset(sessions)[s] else 0
  {
    FilterMultiplicity(MatchesTerm(term), sessions, s);
  }

  /** The search never reorders: filtering a concatenation filters each part. */
  lemma FilteredKeepsOrder(a: seq<S.Session>, b: seq<S.Session>, term: string)
    ensures FilteredSessions(a + b, term) == FilteredSessions(a, term) + FilteredSessions(b, term)
  {
    FilterConcat(MatchesTerm(term), a, b);
  }

  /** An empty search lists every session. */
  lemma EmptySearchKeepsAll(sessions: seq<S.Session>)
    ensures FilteredSessions(sessions, "") == sessions
  {
    forall k | 0 <= k < |sessions| ensures MatchesTerm("")(sessions[k]) {
      IncludesEmpty(ToLower(sessions[k].title));
    }
    FilterKeepsAll(MatchesTerm(""), sessions);
  }

  /** The search ignores the case of the term. */
  lemma SearchIgnoresTermCase(sessions: seq<S.Session>, term: string)
    ensures FilteredSessions(sessions, ToLower(term)) == FilteredSessions(sessions, term)
  {
    ToLowerIdempotent(term);
    FilterAgrees(MatchesTerm(ToLower(term)), MatchesTerm(term), sessions);
  }

  /** The model switcher's `onChange`: set the model, then start a new session. */
  function SwitchModel(store: Store, value: string, newId: string): (r: Store)
    ensures r.state.activeModel == value
    ensures r.state.sessions == [S.NewSession(newId)] + store.state.sessions
    ensures r.state.activeSessionId == Some(newId)
    ensures InSync(r)
  {
    Dispatch(Dispatch(store, SetActiveModel(value)), AddSession(newId))
  }

  /** Switching model with a fresh id keeps ids unique and the pointer valid. */
  lemma SwitchModelKeepsWellFormed(store: Store, value: string, newId: string)
    requires S.WellFormed(store.state) && !S.HasId(store.state.sessions, newId)
    ensures S.WellFormed(SwitchModel(store, value, newId).state)
  {
    var s1 := Dispatch(store, SetActiveModel(value));
    DispatchKeepsWellFormed(store, SetActiveModel(value));
    DispatchKeepsWellFormed(s1, AddSession(newId));
  }

  /** The model menu offers `model`. */
  predicate OnMenu(model: string)
  {
    exists k :: 0 <= k < |Models| && Models[k].value == model
  }

  /** The model a fresh state starts with is one of the menu entries. */
  lemma DefaultModelOnMenu()
    ensures OnMenu(S.DefaultModel)
  {
    assert Models[1].value == S.DefaultModel;
  }

  /** Picking a menu entry leaves a model the menu offers selected. */
  lemma MenuSwitchStaysOnMenu(store: Store, k: nat, newId: string)
    requires k < |Models|
    ensures OnMenu(SwitchModel(store, Models[k].value, newId).state.activeModel)
  {
    assert SwitchModel(store, Models[k].value, newId).state.activeModel == Models[k].value;
  }

  /** Clicking the `k`-th listed session makes it active; the pointer then names an existing session. */
  function SelectListed(store: Store, term: string, k: nat): (r: Store)
    requires k < |FilteredSessions(store.state.sessions, term)|
    ensures r.state.activeSessionId == Some(FilteredSessions(store.state.sessions, term)[k].id)
    ensures S.ActiveValid(r.state)
    ensures r.state.sessions == store.state.sessions && InSync(r)
    ensures r.state.activeModel == store.state.activeModel
  {
    var listed := FilteredSessions(store.state.sessions, term);
    assert listed[k] in store.state.sessions;
    Dispatch(store, SetActiveSession(listed[k].id))
  }

  /** Clicking a listed session keeps ids unique and the pointer valid. */
  lemma SelectListedKeepsWellFormed(store: Store, term: string, k: nat)
    requires k < |FilteredSessions(store.state.sessions, term)|
    requires S.WellFormed(store.state)
    ensures S.WellFormed(SelectListed(store, term, k).state)
  {
  }

  /** Confirming the delete dialog of the `k`-th listed session removes it from the list. */
  function DeleteListed(store: Store, term: string, k: nat): (r: Store)
    requires k < |FilteredSessions(store.state.sessions, term)|
    ensures !S.HasId(r.state.sessions, FilteredSessions(store.state.sessions, term)[k].id)
    ensures r.state.activeSessionId != Some(FilteredSessions(store.state.sessions, term)[k].id)
    ensures r.state == S.DeleteSession(store.state, FilteredSessions(store.state.sessions, term)[k].id)
    ensures InSync(r)
  {
    var listed := FilteredSessions(store.state.sessions, term);
    Dispatch(store, DeleteSession(listed[k].id))
  }

  /** The label of a session button: the title, or "Chat Baru" when the title is empty. */
  function DisplayTitle(title: string): (r: string)
    ensures r != []
    ensures r == title <==> title != []
    ensures title == [] ==> r == UntitledLabel
  {
    if title == "" then UntitledLabel else title
  }
}

=== FILE: chat_sessions_slice.dfy ===
/**
 * The chat-session state and its reducers (the Redux slice). Each reducer is a pure
 * transformation of a `State`; whether it goes on to save the state is decided in `ChatStore`.
 */
module ChatSessionsSlice {
  import opened Optional
  import opened JsArray

  datatype Role = User | Ai

  datatype Message = Message(role: Role, content: string)

  datatype Session = Session(id: string, title: string, messages: seq<Message>)

  datatype State = State(sessions: seq<Session>, activeSessionId: Option<string>, activeModel: string)

  const NewChatTitle: string := "New Chat"
  const DefaultModel: string := "mistralai/mistral-small-3.2-24b-instruct:free"

  /** A freshly created session: placeholder title, no messages. */
  function NewSession(id: string): Session
  {
    Session(id, NewChatTitle, [])
  }

  /** The fallback state used when nothing usable was loaded: one new session and no active session. */
  function DefaultState(freshId: string): (r: State)
    ensures WellFormed(r)
    ensures |r.sessions| == 1 && r.sessions[0].id == freshId
    ensures r.sessions[0].title == NewChatTitle && r.sessions[0].messages == []
    ensures r.activeSessionId.None? && r.activeModel == DefaultModel
  {
    State([NewSession(freshId)], None, DefaultModel)
  }

  predicate HasId(sessions: seq<Session>, id: string)
  {
    exists i :: 0 <= i < |sessions| && sessions[i].id == id
  }

  /** No two sessions share an id. */
  predicate UniqueIds(sessions: seq<Session>)
  {
    forall i, j :: 0 <= i < j < |sessions| ==> sessions[i].id != sessions[j].id
  }

  /** The active pointer is null or names an existing session. */
  predicate ActiveValid(st: State)
  {
    st.activeSessionId.Some? ==> HasId(st.sessions, st.activeSessionId.value)
  }

  predicate WellFormed(st: State)
  {
    UniqueIds(st.sessions) && ActiveValid(st)
  }

  /** Position of the session `sessions.find(s => s.id === id)` returns: the first one with that id. */
  /** Session `i` is the first one with this id. */
  predicate FirstWithId(sessions: seq<Session>, id: string, i: int)
  {
    && 0 <= i < |sessions|
    && sessions[i].id == id
    && forall j :: 0 <= j < i ==> sessions[j].id != id
  }

  function FindSession(sessions: seq<Session>, id: string): (r: Option<nat>)
    ensures r.Some? <==> HasId(sessions, id)
    ensures r.Some? ==> r.value < |sessions| && sessions[r.value].id == id
    ensures r.Some? ==> forall j :: 0 <= j < r.value ==> sessions[j].id != id
  {
    if |sessions| == 0 then None
    else if sessions[0].id == id then Some(0)
    else
      match FindSession(sessions[1..], id)
      case None => None
      case Some(k) =>
        assert sessions[k + 1] == sessions[1..][k];
        Some(k + 1)
  }

  /** `find` returns exactly the first session with the id. */
  lemma FindSessionIsFirst(sessions: seq<Session>, id: string)
    ensures forall i :: FirstWithId(sessions, id, i) ==> FindSession(sessions, id) == Some(i)
  {
    forall i | FirstWithId(sessions, id, i)
      ensures FindSession(sessions, id) == Some(i)
    {
      assert HasId(sessions, id);
    }
  }

  /** Position of the session the active pointer selects, if any. */
  function ActiveIndex(st: State): (r: Option<nat>)
    ensures r.Some? <==> st.activeSessionId.Some? && HasId(st.sessions, st.activeSessionId.value)
    ensures r.Some? ==> r.value < |st.sessions| && st.sessions[r.value].id == st.activeSessionId.value
  {
    match st.activeSessionId
    case None => None
    case Some(id) => FindSession(st.sessions, id)
  }

  /** `r` differs from `st` at most in the title and messages of session `i`. */
  predicate OnlySessionChanged(st: State, r: State, i: nat)
    requires i < |st.sessions|
  {
    && |r.sessions| == |st.sessions|
    && r.sessions[i].id == st.sessions[i].id
    && (forall j :: 0 <= j < |st.sessions| && j != i ==> r.sessions[j] == st.sessions[j])
    && r.activeSessionId == st.activeSessionId
    && r.activeModel == st.activeModel
  }

  /** `addSession`: a new empty session goes first and becomes the active one. */
  function AddSession(st: State, newId: string): (r: State)
    ensures |r.sessions| == |st.sessions| + 1 && r.sessions[1..] == st.sessions
    ensures r.sessions[0] == NewSession(newId)
    ensures r.activeSessionId == Some(newId) && HasId(r.sessions, newId)
    ensures r.activeModel == st.activeModel
  {
    st.(sessions := [NewSession(newId)] + st.sessions, activeSessionId := Some(newId))
  }

  /** `setActiveSession`: overwrites the pointer without checking that the id exists. */
  function SetActiveSession(st: State, id: string): (r: State)
    ensures r.activeSessionId == Some(id)
    ensures r.sessions == st.sessions && r.activeModel == st.activeModel
  {
    st.(activeSessionId := Some(id))
  }

  /** `addMessageToSession`: appends to the first session with that id; an unknown id changes nothing. */
  function AddMessageToSession(st: State, sessionId: string, message: Message): (r: State)
    ensures FindSession(st.sessions, sessionId).None? ==> r == st
    ensures FindSession(st.sessions, sessionId).Some? ==>
              var i := FindSession(st.sessions, sessionId).value;
              && OnlySessionChanged(st, r, i)
              && r.sessions[i].title == st.sessions[i].title
              && r.sessions[i].messages == st.sessions[i].messages + [message]
  {
    match FindSession(st.sessions, sessionId)
    case None => st
    case Some(i) =>
      var s := st.sessions[i];
      st.(sessions := st.sessions[i := s.(messages := s.messages + [message])])
  }

  /** `resetActiveSession`: empties the active session's messages; with no active session nothing changes. */
  function ResetActiveSession(st: State): (r: State)
    ensures ActiveIndex(st).None? ==> r == st
    ensures ActiveIndex(st).Some? ==>
              var i := ActiveIndex(st).value;
              && OnlySessionChanged(st, r, i)
              && r.sessions[i].title == st.sessions[i].title
              && r.sessions[i].messages == []
  {
    match ActiveIndex(st)
    case None => st
    case Some(i) => st.(sessions := st.sessions[i := st.sessions[i].(messages := [])])
  }

  /** `clearAllSessions`: everything is replaced by one new active session; the model is kept. */
  function ClearAllSessions(st: State, newId: string): (r: State)
    ensures |r.sessions| == 1 && r.sessions[0] == NewSession(newId)
    ensures r.activeSessionId == Some(newId)
    ensures r.activeModel == st.activeModel
  {
    State([NewSession(newId)], Some(newId), st.activeModel)
  }

  /** `renameSession`: retitles the first session with that id; an unknown id changes nothing. */
  function RenameSession(st: State, sessionId: string, title: string): (r: State)
    ensures FindSession(st.sessions, sessionId).None? ==> r == st
    ensures FindSession(st.sessions, sessionId).Some? ==>
              var i := FindSession(st.sessions, sessionId).value;
              && OnlySessionChanged(st, r, i)
              && r.sessions[i].title == title
              && r.sessions[i].messages == st.sessions[i].messages
  {
    match FindSession(st.sessions, sessionId)
    case None => st
    case Some(i) => st.(sessions := st.sessions[i := st.sessions[i].(title := title)])
  }

  /** The guard `session && session.messages[messageIndex]`: the session exists and the index is in range. */
  function CanUpdateMessage(st: State, sessionId: string, messageIndex: int): (r: bool)
    ensures !HasId(st.sessions, sessionId) || messageIndex < 0 ==> !r
    ensures forall i :: FirstWithId(st.sessions, sessionId, i) ==> (r <==> 0 <= messageIndex < |st.sessions[i].messages|)
  {
    FindSessionIsFirst(st.sessions, sessionId);
    match FindSession(st.sessions, sessionId)
    case None => false
    case Some(i) => 0 <= messageIndex < |st.sessions[i].messages|
  }

  /** `updateSessionMessage`: replaces one message's content in place; otherwise nothing changes. */
  function UpdateSessionMessage(st: State, sessionId: string, messageIndex: int, newContent: string): (r: State)
    ensures !CanUpdateMessage(st, sessionId, messageIndex) ==> r == st
    ensures CanUpdateMessage(st, sessionId, messageIndex) ==>
              var i := FindSession(st.sessions, sessionId).value;
              && OnlySessionChanged(st, r, i)
              && r.sessions[i].title == st.sessions[i].title
              && var before := st.sessions[i].messages;
                 var after := r.sessions[i].messages;
                 && |after| == |before|
                 && after[messageIndex].role == before[messageIndex].role
                 && after[messageIndex].content == newContent
                 && (forall k :: 0 <= k < |before| && k != messageIndex ==> after[k] == before[k])
  {
    match FindSession(st.sessions, sessionId)
    case None => st
    case Some(i) =>
      var s := st.sessions[i];
      if 0 <= messageIndex < |s.messages| then
        var m := s.messages[messageIndex];
        st.(sessions := st.sessions[i := s.(messages := s.messages[messageIndex := m.(content := newContent)])])
      else st
  }

  /** `setActiveModel`: overwrites the model identifier, unchecked. */
  function SetActiveModel(st: State, model: string): (r: State)
    ensures r.activeModel == model
    ensures r.sessions == st.sessions && r.activeSessionId == st.activeSessionId
  {
    st.(activeModel := model)
  }

  /** The filter test of `deleteSession`. */
  function IdIsNot(id: string): Session -> bool
  {
    (s: Session) => s.id != id
  }

  /**
   * `deleteSession`: drops every session with that id. When it was the active one the pointer moves
   * to the first remaining session, through `sessions[0]?.id || null`, so an empty first id also gives null.
   */
  function DeleteSession(st: State, id: string): (r: State)
    ensures r.sessions == Filter(IdIsNot(id), st.sessions)
    ensures !HasId(r.sessions, id)
    ensures st.activeSessionId == Some(id) ==>
              r.activeSessionId == (if |r.sessions| > 0 && r.sessions[0].id != "" then Some(r.sessions[0].id) else None)
    ensures st.activeSessionId != Some(id) ==> r.activeSessionId == st.activeSessionId
    ensures r.activeSessionId != Some(id)
    ensures r.activeModel == st.activeModel
  {
    var rest := Filter(IdIsNot(id), st.sessions);
    var active :=
      if st.activeSessionId == Some(id) then
        (if |rest| > 0 && rest[0].id != "" then Some(rest[0].id) else None)
      else st.activeSessionId;
    st.(sessions := rest, activeSessionId := active)
  }

  /** Changing only the title or messages of one session keeps ids unique and the pointer valid. */
  lemma OnlySessionChangedKeepsWellFormed(st: State, r: State, i: nat)
    requires i < |st.sessions| && OnlySessionChanged(st, r, i)
    requires WellFormed(st)
    ensures WellFormed(r)
  {
    assert forall j :: 0 <= j < |r.sessions| ==> r.sessions[j].id == st.sessions[j].id;
    if r.activeSessionId.Some? {
      var k :| 0 <= k < |st.sessions| && st.sessions[k].id == st.activeSessionId.value;
      assert r.sessions[k].id == r.activeSessionId.value;
    }
  }

  /** With an id not yet in use, `addSession` keeps ids unique and the pointer valid. */
  lemma AddSessionKeepsWellFormed(st: State, newId: string)
    requires WellFormed(st) && !HasId(st.sessions, newId)
    ensures WellFormed(AddSession(st, newId))
  {
    var r := AddSession(st, newId);
    forall i, j | 0 <= i < j < |r.sessions| ensures r.sessions[i].id != r.sessions[j].id {
      assert r.sessions[j] == st.sessions[j - 1];
      if i > 0 {
        assert r.sessions[i] == st.sessions[i - 1];
      }
    }
  }

  /** Removing sessions keeps the remaining ids unique. */
  lemma {:induction false} FilterKeepsUniqueIds(p: Session -> bool, sessions: seq<Session>)
    requires UniqueIds(sessions)
    ensures UniqueIds(Filter(p, sessions))
    decreases |sessions|
  {
    if |sessions| > 0 {
      var rest := Filter(p, sessions[1..]);
      FilterKeepsUniqueIds(p, sessions[1..]);
      if p(sessions[0]) {
        var r := Filter(p, sessions);
        assert r == [sessions[0]] + rest;
        forall j | 0 < j < |r| ensures r[0].id != r[j].id {
          assert r[j] == rest[j - 1];
          assert rest[j - 1] in sessions[1..];
        }
      }
    }
  }

  /** `deleteSession` keeps ids unique and leaves the pointer null or on an existing session. */
  lemma DeleteSessionKeepsWellFormed(st: State, id: string)
    requires WellFormed(st)
    ensures WellFormed(DeleteSession(st, id))
  {
    var r := DeleteSession(st, id);
    FilterKeepsUniqueIds(IdIsNot(id), st.sessions);
    if r.activeSessionId.Some? && st.activeSessionId != Some(id) {
      var k :| 0 <= k < |st.sessions| && st.sessions[k].id == st.activeSessionId.value;
      assert st.sessions[k] in r.sessions;
    }
  }

  /**
   * Deleting the active session leaves the pointer on the first remaining session, and null exactly
   * when none remain, provided no session has the empty id.
   */
  lemma DeleteActiveSession(st: State, id: string)
    requires st.activeSessionId == Some(id)
    requires forall i :: 0 <= i < |st.sessions| ==> st.sessions[i].id != ""
    ensures var r := DeleteSession(st, id);
            && (r.activeSessionId.None? <==> r.sessions == [])
            && (r.sessions != [] ==> r.activeSessionId == Some(r.sessions[0].id))
  {
    var r := DeleteSession(st, id);
    assert |r.sessions| > 0 ==> r.sessions[0] in st.sessions;
  }

  /** `deleteSession` removes every occurrence of the id's sessions and keeps every other session, as often as it occurred. */
  lemma DeleteSessionKeepsOthers(st: State, id: string, s: Session)
    ensures multiset(DeleteSession(st, id).sessions)[s] == if s.id != id then multiset(st.sessions)[s] else 0
  {
    FilterMultiplicity(IdIsNot(id), st.sessions, s);
  }

  /** Deleting the same id twice is deleting it once. */
  lemma DeleteSessionIdempotent(st: State, id: string)
    ensures DeleteSession(DeleteSession(st, id), id) == DeleteSession(st, id)
  {
    FilterIdempotent(IdIsNot(id), st.sessions);
  }

  /** Deleting a session just added with a fresh id gives back the original list of sessions. */
  lemma AddThenDeleteSession(st: State, newId: string)
    requires !HasId(st.sessions, newId)
    ensures DeleteSession(AddSession(st, newId), newId).sessions == st.sessions
  {
    var added := AddSession(st, newId).sessions;
    assert added == [NewSession(newId)] + st.sessions;
    FilterConcat(IdIsNot(newId), [NewSession(newId)], st.sessions);
    FilterKeepsAll(IdIsNot(newId), st.sessions);
  }

  /** Editing a message and then writing its old content back restores the state. */
  lemma UpdateSessionMessageUndo(st: State, sessionId: string, messageIndex: int, newContent: string)
    requires CanUpdateMessage(st, sessionId, messageIndex)
    ensures var i := FindSession(st.sessions, sessionId).value;
            var previous := st.sessions[i].messages[messageIndex].content;
            UpdateSessionMessage(UpdateSessionMessage(st, sessionId, messageIndex, newContent), sessionId, messageIndex, previous) == st
  {
    var i := FindSession(st.sessions, sessionId).value;
    var r := UpdateSessionMessage(st, sessionId, messageIndex, newContent);
    assert FindSession(r.sessions, sessionId) == Some(i);
    var back := UpdateSessionMessage(r, sessionId, messageIndex, st.sessions[i].messages[messageIndex].content);
    assert back.sessions[i].messages == st.sessions[i].messages;
    assert back.sessions == st.sessions;
  }

  /** Renaming a session and then restoring its old title restores the state. */
  lemma RenameSessionUndo(st: State, sessionId: string, title: string)
    requires HasId(st.sessions, sessionId)
    ensures var i := FindSession(st.sessions, sessionId).value;
            RenameSession(RenameSession(st, sessionId, title), sessionId, st.sessions[i].title) == st
  {
    var i := FindSession(st.sessions, sessionId).value;
    var r := RenameSession(st, sessionId, title);
    assert FindSession(r.sessions, sessionId) == Some(i);
    var back := RenameSession(r, sessionId, st.sessions[i].title);
    assert back.sessions == st.sessions;
  }

  /** Changing one session's title or messages does not move any id, so every lookup finds the same position. */
  lemma OnlySessionChangedKeepsLookup(st: State, r: State, i: nat, id: string)
    requires i < |st.sessions| && OnlySessionChanged(st, r, i)
    ensures FindSession(r.sessions, id) == FindSession(st.sessions, id)
  {
    assert forall j :: 0 <= j < |r.sessions| ==> r.sessions[j].id == st.sessions[j].id;
    SameIdsSameLookup(st.sessions, r.sessions, id);
  }

  /** Editing one session's title or messages leaves the active session where it was. */
  lemma OnlySessionChangedKeepsActive(st: State, r: State, i: nat)
    requires i < |st.sessions| && OnlySessionChanged(st, r, i)
    ensures ActiveIndex(r) == ActiveIndex(st)
  {
    assert forall j :: 0 <= j < |r.sessions| ==> r.sessions[j].id == st.sessions[j].id;
    if st.activeSessionId.Some? {
      SameIdsSameLookup(st.sessions, r.sessions, st.activeSessionId.value);
    }
  }

  lemma SameIdsSameLookup(a: seq<Session>, b: seq<Session>, id: string)
    requires |a| == |b| && forall j :: 0 <= j < |a| ==> a[j].id == b[j].id
    ensures FindSession(a, id) == FindSession(b, id)
  {
    var fa, fb := FindSession(a, id), FindSession(b, id);
    if fa.Some? {
      assert b[fa.value].id == id;
      assert fb.Some?;
      assert a[fb.value].id == id;
    }
  }
}

=== FILE: chat_store.dfy ===
/**
 * The store around the slice: the actions the UI dispatches, and the persisted snapshot that
 * `saveToLocalStorage` overwrites whenever a reducer reaches its save call. Storage itself
 * (JSON, `localStorage`, its failures) is abstracted to "the last saved state".
 */
module ChatStore {
  import opened Optional
  import S = ChatSessionsSlice

  /** The exported action creators, with `crypto.randomUUID()` supplied by the caller as `newId`. */
  datatype Action =
    | AddSession(newId: string)
    | SetActiveSession(id: string)
    | AddMessageToSession(sessionId: string, message: S.Message)
    | ResetActiveSession
    | ClearAllSessions(newId: string)
    | RenameSession(sessionId: string, title: string)
    | UpdateSessionMessage(sessionId: string, messageIndex: int, newContent: string)
    | SetActiveModel(model: string)
    | DeleteSession(id: string)

  /** The in-memory state and the snapshot in storage (None: nothing loadable is stored). */
  datatype Store = Store(state: S.State, persisted: Option<S.State>)

  /** The snapshot in storage is the in-memory state. */
  predicate InSync(store: Store)
  {
    store.persisted == Some(store.state)
  }

  /** The startup state: what storage yielded, else the default state (which is not saved yet). */
  function Initial(loaded: Option<S.State>, freshId: string): (r: Store)
    ensures loaded.Some? ==> InSync(r) && r.state == loaded.value
    ensures loaded.None? ==>
              && r.persisted.None?
              && r.state.sessions == [S.Session(freshId, S.NewChatTitle, [])]
              && r.state.activeSessionId.None?
              && r.state.activeModel == S.DefaultModel
  {
    match loaded
    case Some(st) => Store(st, loaded)
    case None => Store(S.DefaultState(freshId), None)
  }

  /**
   * Does the reducer for `a` reach its `saveToLocalStorage` call? Only the reducers that look a session
   * up can skip it, and a reducer that skips it leaves the state unchanged.
   */
  function Saves(st: S.State, a: Action): (r: bool)
    ensures !r ==> Reduce(st, a) == st
    ensures !r ==> a.AddMessageToSession? || a.ResetActiveSession? || a.RenameSession? || a.UpdateSessionMessage?
    ensures a.AddMessageToSession? || a.RenameSession? ==> (r <==> S.HasId(st.sessions, a.sessionId))
    ensures a.ResetActiveSession? ==> (r <==> S.ActiveIndex(st).Some?)
    ensures a.UpdateSessionMessage? ==> (r <==> S.CanUpdateMessage(st, a.sessionId, a.messageIndex))
  {
    match a
    case AddMessageToSession(sessionId, _) => S.HasId(st.sessions, sessionId)
    case ResetActiveSession => S.ActiveIndex(st).Some?
    case RenameSession(sessionId, _) => S.HasId(st.sessions, sessionId)
    case UpdateSessionMessage(sessionId, messageIndex, _) => S.CanUpdateMessage(st, sessionId, messageIndex)
    case _ => true
  }

  /** The slice reducer. */
  function Reduce(st: S.State, a: Action): (r: S.State)
    ensures !a.SetActiveModel? ==> r.activeModel == st.activeModel
    ensures a.SetActiveModel? ==> r.sessions == st.sessions && r.activeSessionId == st.activeSessionId
    ensures a.SetActiveSession? ==> r.sessions == st.sessions
    ensures a.AddMessageToSession? || a.ResetActiveSession? || a.RenameSession? || a.UpdateSessionMessage? ==>
              && |r.sessions| == |st.sessions|
              && r.activeSessionId == st.activeSessionId
              && forall j :: 0 <= j < |st.sessions| ==> r.sessions[j].id == st.sessions[j].id
  {
    match a
    case AddSession(newId) => S.AddSession(st, newId)
    case SetActiveSession(id) => S.SetActiveSession(st, id)
    case AddMessageToSession(sessionId, message) => S.AddMessageToSession(st, sessionId, message)
    case ResetActiveSession => S.ResetActiveSession(st)
    case ClearAllSessions(newId) => S.ClearAllSessions(st, newId)
    case RenameSession(sessionId, title) => S.RenameSession(st, sessionId, title)
    case UpdateSessionMessage(sessionId, messageIndex, newContent) =>
      S.UpdateSessionMessage(st, sessionId, messageIndex, newContent)
    case SetActiveModel(model) => S.SetActiveModel(st, model)
    case DeleteSession(id) => S.DeleteSession(st, id)
  }

  /**
   * One dispatch: the reducer runs, and the new state is saved when the reducer reaches its save call.
   * A dispatch that does not save leaves the whole store as it was.
   */
  function Dispatch(store: Store, a: Action): (r: Store)
    ensures r.state == Reduce(store.state, a)
    ensures Saves(store.state, a) ==> InSync(r)
    ensures !Saves(store.state, a) ==> r == store
  {
    var next := Reduce(store.state, a);
    Store(next, if Saves(store.state, a) then Some(next) else store.persisted)
  }

  /** Dispatches the actions one after the other. */
  function DispatchAll(store: Store, actions: seq<Action>): Store
    decreases |actions|
  {
    if |actions| == 0 then store else DispatchAll(Dispatch(store, actions[0]), actions[1..])
  }

  /** Once storage holds the current state, it keeps holding it whatever is dispatched. */
  lemma {:induction false} DispatchAllKeepsInSync(store: Store, actions: seq<Action>)
    requires InSync(store)
    ensures InSync(DispatchAll(store, actions))
    decreases |actions|
  {
    if |actions| > 0 {
      DispatchAllKeepsInSync(Dispatch(store, actions[0]), actions[1..]);
    }
  }

  /** A caller respects the slice's assumptions: fresh ids for new sessions, existing ids for selection. */
  predicate Admissible(st: S.State, a: Action)
  {
    match a
    case AddSession(newId) => !S.HasId(st.sessions, newId)
    case SetActiveSession(id) => S.HasId(st.sessions, id)
    case _ => true
  }

  /** Every admissible dispatch keeps ids unique and the active pointer null or valid. */
  lemma DispatchKeepsWellFormed(store: Store, a: Action)
    requires S.WellFormed(store.state) && Admissible(store.state, a)
    ensures S.WellFormed(Dispatch(store, a).state)
  {
    var st := store.state;
    match a
    case AddSession(newId) => S.AddSessionKeepsWellFormed(st, newId);
    case SetActiveSession(id) =>
    case AddMessageToSession(sessionId, message) =>
      if S.HasId(st.sessions, sessionId) {
        S.OnlySessionChangedKeepsWellFormed(st, Reduce(st, a), S.FindSession(st.sessions, sessionId).value);
      }
    case ResetActiveSession =>
      if S.ActiveIndex(st).Some? {
        S.OnlySessionChangedKeepsWellFormed(st, Reduce(st, a), S.ActiveIndex(st).value);
      }
    case ClearAllSessions(newId) =>
    case RenameSession(sessionId, title) =>
      if S.HasId(st.sessions, sessionId) {
        S.OnlySessionChangedKeepsWellFormed(st, Reduce(st, a), S.FindSession(st.sessions, sessionId).value);
      }
    case UpdateSessionMessage(sessionId, messageIndex, newContent) =>
      if S.CanUpdateMessage(st, sessionId, messageIndex) {
        S.OnlySessionChangedKeepsWellFormed(st, Reduce(st, a), S.FindSession(st.sessions, sessionId).value);
      }
    case SetActiveModel(model) =>
    case DeleteSession(id) => S.DeleteSessionKeepsWellFormed(st, id);
  }

  /** The sessions `addSession` creates from `ids`, newest first, in front of `sessions`. */
  function Created(ids: seq<string>, sessions: seq<S.Session>): seq<S.Session>
    decreases |ids|
  {
    if |ids| == 0 then sessions else Created(ids[1..], [S.NewSession(ids[0])] + sessions)
  }

  function AddSessions(ids: seq<string>): seq<Action>
  {
    seq(|ids|, k requires 0 <= k < |ids| => AddSession(ids[k]))
  }

  /**
   * A run of `addSession` calls with distinct fresh ids keeps the ids unique, stacks the new sessions
   * newest-first, and leaves the most recently created one active.
   */
  lemma {:induction false} AddSessionsStack(store: Store, ids: seq<string>)
    requires S.WellFormed(store.state)
    requires forall k :: 0 <= k < |ids| ==> !S.HasId(store.state.sessions, ids[k])
    requires forall k, l :: 0 <= k < l < |ids| ==> ids[k] != ids[l]
    ensures var r := DispatchAll(store, AddSessions(ids));
            && S.WellFormed(r.state)
            && r.state.sessions == Created(ids, store.state.sessions)
            && (|ids| > 0 ==> r.state.activeSessionId == Some(ids[|ids| - 1]))
            && (|ids| == 0 ==> r == store)
    decreases |ids|
  {
    if |ids| > 0 {
      var next := Dispatch(store, AddSession(ids[0]));
      S.AddSessionKeepsWellFormed(store.state, ids[0]);
      forall k | 0 <= k < |ids[1..]| ensures !S.HasId(next.state.sessions, ids[1..][k]) {
        forall j | 0 <= j < |next.state.sessions| ensures next.state.sessions[j].id != ids[k + 1] {
          if j > 0 {
            assert next.state.sessions[j] == store.state.sessions[j - 1];
          }
        }
      }
      assert AddSessions(ids)[1..] == AddSessions(ids[1..]);
      AddSessionsStack(next, ids[1..]);
    }
  }

  /** Every action but `setActiveModel` ignores the selected model and leaves it as it was. */
  lemma ReduceIgnoresModel(st: S.State, model: string, a: Action)
    requires !a.SetActiveModel?
    ensures Reduce(st.(activeModel := model), a) == Reduce(st, a).(activeModel := model)
  {
    var w := st.(activeModel := model);
    assert S.ActiveIndex(w) == S.ActiveIndex(st);
  }
}

=== FILE: chat_workflows.dfy ===
/**
 * The two workflows of the chat panel (send, and edit-and-resend) and its startup effect. The
 * completion call is the parameter `ask`: it receives the prompt and yields a reply or a failure.
 * Each workflow runs to completion as one step, as a single send does when no other is in flight.
 */
module ChatWorkflows {
  import opened Optional
  import opened JsText
  import S = ChatSessionsSlice
  import opened ChatStore

  /** The outcome of one completion call. */
  datatype Completion = Success(reply: string) | Failure

  const SendFailureText: string := "❌ Gagal menjawab."
  const ResendFailureText: string := "❌ Gagal menjawab ulang."
  const PreviewLength: nat := 30

  /** The chat panel: the store plus the component's own input buffer, pending flag and edit dialog. */
  datatype View = View(store: Store, input: string, loading: bool, editing: Option<int>, editedText: string)

  /** A view after a workflow, with the prompt handed to the completion call (None: no call was made). */
  datatype Turn = Turn(view: View, prompt: Option<string>)

  /** JavaScript truthiness of `activeSessionId`: both null and "" are false. */
  function Truthy(id: Option<string>): (r: bool)
    ensures id.None? ==> !r
    ensures id == Some("") ==> !r
    ensures id.Some? && id.value != "" ==> r
  {
    id.Some? && id.value != ""
  }

  /** The ai message's text: the reply, or the fallback when the call failed. */
  function ReplyText(c: Completion, fallback: string): string
  {
    match c
    case Success(reply) => reply
    case Failure => fallback
  }

  /** The title derived from a first message: at most 30 characters, then "..." when cut. */
  function Preview(userMsg: string): (r: string)
    ensures |r| <= PreviewLength + 3
    ensures |userMsg| <= PreviewLength ==> r == userMsg
    ensures |userMsg| > PreviewLength ==> |r| == PreviewLength + 3 && userMsg[..PreviewLength] <= r && r[PreviewLength..] == "..."
  {
    if |userMsg| > PreviewLength then userMsg[..PreviewLength] + "..." else userMsg
  }

  /** The messages on screen when the workflow starts: those of the active session, or none. */
  function ShownMessages(st: S.State): (r: seq<S.Message>)
    ensures st.activeSessionId.None? ==> r == []
    ensures st.activeSessionId.Some? && !S.HasId(st.sessions, st.activeSessionId.value) ==> r == []
    ensures r != [] ==> exists i :: 0 <= i < |st.sessions| && st.sessions[i].id == st.activeSessionId.value
                                    && st.sessions[i].messages == r
    ensures st.activeSessionId.Some? ==>
              forall i :: S.FirstWithId(st.sessions, st.activeSessionId.value, i) ==> r == st.sessions[i].messages
  {
    match st.activeSessionId
    case None => []
    case Some(id) =>
      S.FindSessionIsFirst(st.sessions, id);
      match S.ActiveIndex(st)
      case None => []
      case Some(i) => st.sessions[i].messages
  }

  /** `sendMessage` goes past its guard: the trimmed input is not empty and some id is active. */
  predicate SendAccepted(v: View)
  {
    Trim(v.input) != [] && Truthy(v.store.state.activeSessionId)
  }

  /**
   * `sendMessage`: appends the trimmed input as a user message, titles an empty session with its
   * preview, clears the input, asks for a completion with the trimmed text alone, and appends
   * exactly one ai message: the reply or the fixed fallback.
   */
  function SendMessage(v: View, ask: string -> Completion): (r: Turn)
    ensures !SendAccepted(v) ==> r == Turn(v, None)
    ensures SendAccepted(v) ==>
              && r.prompt == Some(Trim(v.input))
              && r.view.input == [] && !r.view.loading
              && r.view.editing == v.editing && r.view.editedText == v.editedText
              && r.view.store.state.activeSessionId == v.store.state.activeSessionId
              && r.view.store.state.activeModel == v.store.state.activeModel
    ensures SendAccepted(v) && S.ActiveIndex(v.store.state).None? ==> r.view.store == v.store
    ensures SendAccepted(v) && S.ActiveIndex(v.store.state).Some? ==>
              var i := S.ActiveIndex(v.store.state).value;
              var msg := Trim(v.input);
              var before := v.store.state.sessions[i];
              && S.OnlySessionChanged(v.store.state, r.view.store.state, i)
              && r.view.store.state.sessions[i].messages
                 == before.messages + [S.Message(S.User, msg), S.Message(S.Ai, ReplyText(ask(msg), SendFailureText))]
              && r.view.store.state.sessions[i].title == (if |before.messages| == 0 then Preview(msg) else before.title)
              && InSync(r.view.store)
  {
    var msg := Trim(v.input);
    if msg == [] || !Truthy(v.store.state.activeSessionId) then Turn(v, None)
    else
      var st := v.store.state;
      var id := st.activeSessionId.value;
      var s1 := Dispatch(v.store, AddMessageToSession(id, S.Message(S.User, msg)));
      var s2 := if |ShownMessages(st)| == 0 then Dispatch(s1, RenameSession(id, Preview(msg))) else s1;
      var reply := ReplyText(ask(msg), SendFailureText);
      var s3 := Dispatch(s2, AddMessageToSession(id, S.Message(S.Ai, reply)));
      SendSteps(v.store, id, msg, reply);
      Turn(View(s3, [], false, v.editing, v.editedText), Some(msg))
  }

  /** Dispatching an append to the session at `i` changes only that session and keeps it findable. */
  lemma AppendStep(store: Store, id: string, m: S.Message, i: nat)
    requires S.FindSession(store.state.sessions, id) == Some(i)
    ensures var r := Dispatch(store, AddMessageToSession(id, m));
            && S.OnlySessionChanged(store.state, r.state, i)
            && r.state.sessions[i].messages == store.state.sessions[i].messages + [m]
            && r.state.sessions[i].title == store.state.sessions[i].title
            && S.FindSession(r.state.sessions, id) == Some(i)
            && InSync(r)
  {
    var r := Dispatch(store, AddMessageToSession(id, m));
    assert r.state == S.AddMessageToSession(store.state, id, m);
    S.OnlySessionChangedKeepsLookup(store.state, r.state, i, id);
  }

  /** Dispatching a rename of the session at `i` changes only that session and keeps it findable. */
  lemma RenameStep(store: Store, id: string, title: string, i: nat)
    requires S.FindSession(store.state.sessions, id) == Some(i)
    ensures var r := Dispatch(store, RenameSession(id, title));
            && S.OnlySessionChanged(store.state, r.state, i)
            && r.state.sessions[i].messages == store.state.sessions[i].messages
            && r.state.sessions[i].title == title
            && S.FindSession(r.state.sessions, id) == Some(i)
            && InSync(r)
  {
    var r := Dispatch(store, RenameSession(id, title));
    assert r.state == S.RenameSession(store.state, id, title);
    S.OnlySessionChangedKeepsLookup(store.state, r.state, i, id);
  }

  /** The first two dispatches of `sendMessage`: the user message is appended and, on an empty session, the title set. */
  lemma SendFirstSteps(store: Store, id: string, msg: string, i: nat)
    requires store.state.activeSessionId == Some(id) && S.ActiveIndex(store.state) == Some(i)
    ensures var st := store.state;
            var s1 := Dispatch(store, AddMessageToSession(id, S.Message(S.User, msg)));
            var s2 := if |ShownMessages(st)| == 0 then Dispatch(s1, RenameSession(id, Preview(msg))) else s1;
            && S.OnlySessionChanged(st, s2.state, i)
            && s2.state.sessions[i].messages == st.sessions[i].messages + [S.Message(S.User, msg)]
            && s2.state.sessions[i].title == (if |st.sessions[i].messages| == 0 then Preview(msg) else st.sessions[i].title)
            && S.FindSession(s2.state.sessions, id) == Some(i)
  {
    var st := store.state;
    var s1 := Dispatch(store, AddMessageToSession(id, S.Message(S.User, msg)));
    AppendStep(store, id, S.Message(S.User, msg), i);
    assert |ShownMessages(st)| == |st.sessions[i].messages|;
    if |ShownMessages(st)| == 0 {
      RenameStep(s1, id, Preview(msg), i);
    }
  }

  /** The three dispatches of `sendMessage` all land on the session found at the start. */
  lemma SendSteps(store: Store, id: string, msg: string, reply: string)
    requires store.state.activeSessionId == Some(id)
    ensures var st := store.state;
            var s1 := Dispatch(store, AddMessageToSession(id, S.Message(S.User, msg)));
            var s2 := if |ShownMessages(st)| == 0 then Dispatch(s1, RenameSession(id, Preview(msg))) else s1;
            var s3 := Dispatch(s2, AddMessageToSession(id, S.Message(S.Ai, reply)));
            && s3.state.activeSessionId == st.activeSessionId
            && s3.state.activeModel == st.activeModel
            && (S.ActiveIndex(st).None? ==> s3 == store)
            && (S.ActiveIndex(st).Some? ==>
                  var i := S.ActiveIndex(st).value;
                  && S.OnlySessionChanged(st, s3.state, i)
                  && s3.state.sessions[i].messages == st.sessions[i].messages + [S.Message(S.User, msg), S.Message(S.Ai, reply)]
                  && s3.state.sessions[i].title == (if |st.sessions[i].messages| == 0 then Preview(msg) else st.sessions[i].title)
                  && InSync(s3))
  {
    var st := store.state;
    var s1 := Dispatch(store, AddMessageToSession(id, S.Message(S.User, msg)));
    var s2 := if |ShownMessages(st)| == 0 then Dispatch(s1, RenameSession(id, Preview(msg))) else s1;
    var s3 := Dispatch(s2, AddMessageToSession(id, S.Message(S.Ai, reply)));
    if S.ActiveIndex(st).Some? {
      var i := S.ActiveIndex(st).value;
      SendFirstSteps(store, id, msg, i);
      AppendStep(s2, id, S.Message(S.Ai, reply), i);
    } else {
      assert s3.state == S.AddMessageToSession(s2.state, id, S.Message(S.Ai, reply));
      assert S.ActiveIndex(s1.state).None?;
    }
  }

  /** The edit dialog's save-and-resend button goes past its guard: a message is being edited and some id is active. */
  predicate ResendAccepted(v: View)
  {
    v.editing.Some? && Truthy(v.store.state.activeSessionId)
  }

  /**
   * Edit-and-resend: overwrites the edited message's content in place with the dialog text, closes the
   * dialog, asks for a completion with that text exactly as typed, and appends exactly one ai message
   * at the end: the reply or the fixed fallback. Nothing is removed or moved.
   */
  function EditAndResend(v: View, ask: string -> Completion): (r: Turn)
    ensures !ResendAccepted(v) ==> r == Turn(v, None)
    ensures ResendAccepted(v) ==>
              && r.prompt == Some(v.editedText)
              && !r.view.loading && r.view.editing.None?
              && r.view.input == v.input && r.view.editedText == v.editedText
              && r.view.store.state.activeSessionId == v.store.state.activeSessionId
              && r.view.store.state.activeModel == v.store.state.activeModel
    ensures ResendAccepted(v) && S.ActiveIndex(v.store.state).None? ==> r.view.store == v.store
    ensures ResendAccepted(v) && S.ActiveIndex(v.store.state).Some? ==>
              var i := S.ActiveIndex(v.store.state).value;
              var k := v.editing.value;
              var before := v.store.state.sessions[i].messages;
              && S.OnlySessionChanged(v.store.state, r.view.store.state, i)
              && r.view.store.state.sessions[i].title == v.store.state.sessions[i].title
              && var after := r.view.store.state.sessions[i].messages;
                 && |after| == |before| + 1
                 && after[|before|] == S.Message(S.Ai, ReplyText(ask(v.editedText), ResendFailureText))
                 && (forall j :: 0 <= j < |before| && j != k ==> after[j] == before[j])
                 && (0 <= k < |before| ==> after[k] == S.Message(before[k].role, v.editedText))
                 && InSync(r.view.store)
  {
    if v.editing.None? || !Truthy(v.store.state.activeSessionId) then Turn(v, None)
    else
      var st := v.store.state;
      var id := st.activeSessionId.value;
      var k := v.editing.value;
      var s1 := Dispatch(v.store, UpdateSessionMessage(id, k, v.editedText));
      var reply := ReplyText(ask(v.editedText), ResendFailureText);
      var s2 := Dispatch(s1, AddMessageToSession(id, S.Message(S.Ai, reply)));
      ResendSteps(st, id, k, v.editedText, reply);
      Turn(View(s2, v.input, false, None, v.editedText), Some(v.editedText))
  }

  /** Both dispatches of edit-and-resend land on the session found at the start. */
  lemma ResendSteps(st: S.State, id: string, k: int, text: string, reply: string)
    requires st.activeSessionId == Some(id)
    ensures var s1 := S.UpdateSessionMessage(st, id, k, text);
            var s2 := S.AddMessageToSession(s1, id, S.Message(S.Ai, reply));
            && (S.ActiveIndex(st).None? ==> s2 == st)
            && (S.ActiveIndex(st).Some? ==>
                  var i := S.ActiveIndex(st).value;
                  var before := st.sessions[i].messages;
                  && S.OnlySessionChanged(st, s2, i)
                  && s2.sessions[i].title == st.sessions[i].title
                  && |s2.sessions[i].messages| == |before| + 1
                  && s2.sessions[i].messages[|before|] == S.Message(S.Ai, reply)
                  && (forall j :: 0 <= j < |before| && j != k ==> s2.sessions[i].messages[j] == before[j])
                  && (0 <= k < |before| ==> s2.sessions[i].messages[k] == S.Message(before[k].role, text)))
  {
    var s1 := S.UpdateSessionMessage(st, id, k, text);
    if S.ActiveIndex(st).Some? {
      var i := S.ActiveIndex(st).value;
      if S.CanUpdateMessage(st, id, k) {
        S.OnlySessionChangedKeepsLookup(st, s1, i, id);
        S.OnlySessionChangedKeepsActive(st, s1, i);
      }
      assert |s1.sessions[i].messages| == |st.sessions[i].messages|;
    }
  }

  /**
   * The startup effect: when no id is active (null or ""), a new session is added and made active.
   * The effect depends on `activeSessionId`, so it runs again whenever the pointer changes, for
   * instance when deleting the last session leaves it null; each such run is one call of this function.
   */
  function Startup(store: Store, freshId: string): (r: Store)
    ensures Truthy(store.state.activeSessionId) ==> r == store
    ensures !Truthy(store.state.activeSessionId) ==>
              && r.state.activeSessionId == Some(freshId)
              && S.ActiveIndex(r.state) == Some(0)
              && r.state.sessions == [S.Session(freshId, S.NewChatTitle, [])] + store.state.sessions
              && r.state.activeModel == store.state.activeModel
              && InSync(r)
  {
    if Truthy(store.state.activeSessionId) then store else Dispatch(store, AddSession(freshId))
  }

  /** A first start with empty storage ends with two sessions: the default one and the one the effect adds. */
  lemma FirstStartHasTwoSessions(defaultId: string, freshId: string)
    ensures var r := Startup(Initial(None, defaultId), freshId);
            && r.state.sessions == [S.NewSession(freshId), S.NewSession(defaultId)]
            && r.state.activeSessionId == Some(freshId)
  {
  }

  /** The same view with another model selected. */
  function WithModel(v: View, model: string): View
  {
    v.(store := v.store.(state := v.store.state.(activeModel := model)))
  }

  /**
   * The completion call gets the prompt alone: changing the selected model changes neither the prompt
   * nor any session a send produces.
   */
  lemma SendIgnoresModel(v: View, model: string, ask: string -> Completion)
    ensures SendMessage(WithModel(v, model), ask).prompt == SendMessage(v, ask).prompt
    ensures SendMessage(WithModel(v, model), ask).view.store.state.sessions == SendMessage(v, ask).view.store.state.sessions
  {
    var w := WithModel(v, model);
    assert S.ActiveIndex(w.store.state) == S.ActiveIndex(v.store.state);
  }

  /** Likewise for edit-and-resend. */
  lemma ResendIgnoresModel(v: View, model: string, ask: string -> Completion)
    ensures EditAndResend(WithModel(v, model), ask).prompt == EditAndResend(v, ask).prompt
    ensures EditAndResend(WithModel(v, model), ask).view.store.state.sessions == EditAndResend(v, ask).view.store.state.sessions
  {
    var w := WithModel(v, model);
    if ResendAccepted(v) {
      var id := v.store.state.activeSessionId.value;
      var update := UpdateSessionMessage(id, v.editing.value, v.editedText);
      var append := AddMessageToSession(id, S.Message(S.Ai, ReplyText(ask(v.editedText), ResendFailureText)));
      var s1 := Dispatch(v.store, update);
      var w1 := Dispatch(w.store, update);
      ReduceIgnoresModel(v.store.state, model, update);
      assert w1.state == s1.state.(activeModel := model);
      ReduceIgnoresModel(s1.state, model, append);
      assert Dispatch(w1, append).state == Dispatch(s1, append).state.(activeModel := model);
    }
  }

  /**
   * The title is written once: after a first send to an empty session, a second send to it keeps the
   * preview of the first message as the title.
   */
  lemma TitleSetOnce(v: View, ask: string -> Completion, nextInput: string, nextAsk: string -> Completion)
    requires SendAccepted(v) && S.ActiveIndex(v.store.state).Some?
    requires |ShownMessages(v.store.state)| == 0
    ensures var i := S.ActiveIndex(v.store.state).value;
            var first := SendMessage(v, ask).view;
            var second := SendMessage(first.(input := nextInput), nextAsk).view;
            && first.store.state.sessions[i].title == Preview(Trim(v.input))
            && second.store.state.sessions[i].title == Preview(Trim(v.input))
  {
    var i := S.ActiveIndex(v.store.state).value;
    var first := SendMessage(v, ask).view;
    S.OnlySessionChangedKeepsActive(v.store.state, first.store.state, i);
    var w := first.(input := nextInput);
    assert |ShownMessages(w.store.state)| > 0;
  }

  /**
   * A first message longer than 30 characters: the session gets the user message and then the reply,
   * and its title is the first 30 characters followed by "...".
   */
  lemma LongFirstMessage(id: string, text: string, ask: string -> Completion)
    requires id != "" && text == "Hello there, I need help with X"
    requires ask(text) == Success("Sure, happy to help")
    ensures var st := S.State([S.NewSession(id)], Some(id), S.DefaultModel);
            var r := SendMessage(View(Store(st, Some(st)), text, false, None, []), ask);
            && r.prompt == Some(text)
            && r.view.store.state.sessions
               == [S.Session(id, "Hello there, I need help with ...", [S.Message(S.User, text), S.Message(S.Ai, "Sure, happy to help")])]
  {
    var st := S.State([S.NewSession(id)], Some(id), S.DefaultModel);
    TrimKeepsTrimmed(text);
    ExamplePreview();
    FirstSendToEmptySession(st, text, "Sure, happy to help", ask);
  }

  /** Sending to the only session, still empty: it ends with the user message and the reply, titled by the preview. */
  lemma FirstSendToEmptySession(st: S.State, text: string, reply: string, ask: string -> Completion)
    requires |st.sessions| == 1 && |st.sessions[0].messages| == 0
    requires st.activeSessionId == Some(st.sessions[0].id) && st.sessions[0].id != ""
    requires Trim(text) == text != [] && ask(text) == Success(reply)
    ensures var r := SendMessage(View(Store(st, Some(st)), text, false, None, []), ask);
            && r.prompt == Some(text)
            && r.view.store.state.sessions
               == [S.Session(st.sessions[0].id, Preview(text), [S.Message(S.User, text), S.Message(S.Ai, reply)])]
  {
    var v := View(Store(st, Some(st)), text, false, None, []);
    assert S.ActiveIndex(st) == Some(0);
    assert SendAccepted(v);
    var t := SendMessage(v, ask);
    var r := t.view.store.state;
    assert |r.sessions| == 1;
    assert r.sessions[0].id == st.sessions[0].id;
    assert r.sessions[0].title == Preview(text);
    assert r.sessions[0].messages == [S.Message(S.User, text), S.Message(S.Ai, reply)];
  }

  lemma ExamplePreview()
    ensures Preview("Hello there, I need help with X") == "Hello there, I need help with ..."
  {
    var text := "Hello there, I need help with X";
    assert |text| == 31;
    assert text[..30] == "Hello there, I need help with ";
  }

  /** A failed completion still ends the send with one ai message holding the fallback text, and not pending. */
  lemma FailedSendAppendsFallback(v: View)
    requires SendAccepted(v) && S.ActiveIndex(v.store.state).Some?
    ensures var i := S.ActiveIndex(v.store.state).value;
            var r := SendMessage(v, (p: string) => Failure).view;
            var after := r.store.state.sessions[i].messages;
            && !r.loading
            && |after| == |v.store.state.sessions[i].messages| + 2
            && after[|after| - 1] == S.Message(S.Ai, SendFailureText)
  {
  }

  /**
   * The title is not written only once per session: after `resetActiveSession` empties the active
   * session, the next send titles it again from the new message.
   */
  lemma ResetThenSendRetitles(v: View, ask: string -> Completion)
    requires SendAccepted(v) && S.ActiveIndex(v.store.state).Some?
    ensures var i := S.ActiveIndex(v.store.state).value;
            var reset := v.(store := Dispatch(v.store, ResetActiveSession));
            SendMessage(reset, ask).view.store.state.sessions[i].title == Preview(Trim(v.input))
  {
    var i := S.ActiveIndex(v.store.state).value;
    var reset := v.(store := Dispatch(v.store, ResetActiveSession));
    S.OnlySessionChangedKeepsActive(v.store.state, reset.store.state, i);
    assert |ShownMessages(reset.store.state)| == 0;
  }
}

=== FILE: js_array.dfy ===
/** `Array.prototype.filter`, used both by the sidebar search and by `deleteSession`. */
module JsArray {

  /** The elements of `s` that satisfy `p`, in their original order. */
  function Filter<T>(p: T -> bool, s: seq<T>): (r: seq<T>)
    ensures |r| <= |s|
    ensures forall k :: 0 <= k < |r| ==> p(r[k])
    ensures forall k :: 0 <= k < |r| ==> r[k] in s
    ensures forall k :: 0 <= k < |s| && p(s[k]) ==> s[k] in r
  {
    if |s| == 0 then []
    else
      var rest := Filter(p, s[1..]);
      (if p(s[0]) then [s[0]] else []) + rest
  }

  /** Filtering distributes over concatenation: nothing is reordered. */
  lemma {:induction false} FilterConcat<T>(p: T -> bool, a: seq<T>, b: seq<T>)
    ensures Filter(p, a + b) == Filter(p, a) + Filter(p, b)
    decreases |a|
  {
    if |a| == 0 {
      assert a + b == b;
    } else {
      assert (a + b)[1..] == a[1..] + b;
      FilterConcat(p, a[1..], b);
    }
  }

  /** Each element that satisfies `p` keeps all of its occurrences; any other element loses all of them. */
  lemma {:induction false} FilterMultiplicity<T>(p: T -> bool, s: seq<T>, x: T)
    ensures multiset(Filter(p, s))[x] == if p(x) then multiset(s)[x] else 0
    decreases |s|
  {
    if |s| > 0 {
      FilterMultiplicity(p, s[1..], x);
      assert s == [s[0]] + s[1..];
      assert multiset(s) == multiset([s[0]]) + multiset(s[1..]);
    }
  }

  /** A filter that every element passes returns the whole sequence. */
  lemma {:induction false} FilterKeepsAll<T>(p: T -> bool, s: seq<T>)
    requires forall k :: 0 <= k < |s| ==> p(s[k])
    ensures Filter(p, s) == s
    decreases |s|
  {
    if |s| > 0 {
      FilterKeepsAll(p, s[1..]);
    }
  }

  /** Filtering twice by the same test is filtering once. */
  lemma FilterIdempotent<T>(p: T -> bool, s: seq<T>)
    ensures Filter(p, Filter(p, s)) == Filter(p, s)
  {
    FilterKeepsAll(p, Filter(p, s));
  }

  /** Two tests that agree on every element select the same elements. */
  lemma {:induction false} FilterAgrees<T>(p: T -> bool, q: T -> bool, s: seq<T>)
    requires forall k :: 0 <= k < |s| ==> p(s[k]) == q(s[k])
    ensures Filter(p, s) == Filter(q, s)
    decreases |s|
  {
    if |s| > 0 {
      FilterAgrees(p, q, s[1..]);
    }
  }
}

=== FILE: js_text.dfy ===
/**
 * The few ECMAScript string built-ins the chat client relies on:
 * `String.prototype.trim`, `toLowerCase` (restricted to ASCII letters) and `includes`.
 * JavaScript strings are sequences of UTF-16 code units; here they are `seq<char>`.
 */
module JsText {

  /** The WhiteSpace and LineTerminator code points of ECMAScript, which `trim` strips. */
  predicate IsSpace(c: char)
  {
    || c == '\t' || c == '\n' || c == '\U{000B}' || c == '\U{000C}' || c == '\r'
    || c == ' ' || c == '\U{00A0}' || c == '\U{1680}'
    || ('\U{2000}' <= c <= '\U{200A}')
    || c == '\U{2028}' || c == '\U{2029}' || c == '\U{202F}' || c == '\U{205F}'
    || c == '\U{3000}' || c == '\U{FEFF}'
  }

  predicate AllSpace(s: string)
  {
    forall i :: 0 <= i < |s| ==> IsSpace(s[i])
  }

  /** The first position at or after `i` that does not hold white space, or `|s|`. */
  function SkipSpaces(s: string, i: nat): (k: nat)
    requires i <= |s|
    ensures i <= k <= |s|
    ensures forall j :: i <= j < k ==> IsSpace(s[j])
    ensures k < |s| ==> !IsSpace(s[k])
    decreases |s| - i
  {
    if i < |s| && IsSpace(s[i]) then SkipSpaces(s, i + 1) else i
  }

  /** The end of `s[lo..j]` once its trailing white space is dropped. */
  function SkipSpacesBack(s: string, lo: nat, j: nat): (k: nat)
    requires lo <= j <= |s|
    ensures lo <= k <= j
    ensures forall m :: k <= m < j ==> IsSpace(s[m])
    ensures lo < k ==> !IsSpace(s[k - 1])
    decreases j
  {
    if lo < j && IsSpace(s[j - 1]) then SkipSpacesBack(s, lo, j - 1) else j
  }

  /** `s` with white space dropped at both ends: `r` is the slice `s[i..j]` where everything outside it is white space. */
  ghost predicate IsTrimOf(r: string, s: string)
  {
    exists i, j :: TrimmedAt(r, s, i, j)
  }

  predicate TrimmedAt(r: string, s: string, i: int, j: int)
  {
    0 <= i <= j <= |s| && r == s[i..j] && AllSpace(s[..i]) && AllSpace(s[j..])
  }

  /** `String.prototype.trim`: no white space is left at either end. */
  function Trim(s: string): (r: string)
    ensures r == [] || (!IsSpace(r[0]) && !IsSpace(r[|r| - 1]))
  {
    var i := SkipSpaces(s, 0);
    s[i..SkipSpacesBack(s, i, |s|)]
  }

  /** What `trim` removes is white space at the two ends and nothing else. */
  lemma TrimIsSlice(s: string)
    ensures IsTrimOf(Trim(s), s)
  {
    var i := SkipSpaces(s, 0);
    var j := SkipSpacesBack(s, i, |s|);
    assert TrimmedAt(Trim(s), s, i, j);
  }

  /** The guard `!input.trim()`: the trimmed text is empty exactly when the input is all white space. */
  lemma TrimEmptyIffBlank(s: string)
    ensures Trim(s) == [] <==> AllSpace(s)
  {
    var i := SkipSpaces(s, 0);
    var j := SkipSpacesBack(s, i, |s|);
    assert |Trim(s)| == j - i;
  }

  /** Text with no white space at either end is its own trim, so trimming twice is trimming once. */
  lemma TrimKeepsTrimmed(s: string)
    requires s == [] || (!IsSpace(s[0]) && !IsSpace(s[|s| - 1]))
    ensures Trim(s) == s
  {
    assert SkipSpaces(s, 0) == 0;
    assert SkipSpacesBack(s, 0, |s|) == |s|;
  }

  lemma TrimIdempotent(s: string)
    ensures Trim(Trim(s)) == Trim(s)
  {
    TrimKeepsTrimmed(Trim(s));
  }

  /** `toLowerCase` on one code unit, for the ASCII letters only. */
  function LowerChar(c: char): (r: char)
    ensures !('A' <= r <= 'Z')
    ensures r == c || ('A' <= c <= 'Z' && r as int == c as int + 32)
  {
    if 'A' <= c <= 'Z' then (c as int + 32) as char else c
  }

  /** `String.prototype.toLowerCase`, ASCII letters only. */
  function ToLower(s: string): (r: string)
    ensures |r| == |s|
    ensures forall i :: 0 <= i < |s| ==> r[i] == LowerChar(s[i])
  {
    seq(|s|, i requires 0 <= i < |s| => LowerChar(s[i]))
  }

  lemma ToLowerIdempotent(s: string)
    ensures ToLower(ToLower(s)) == ToLower(s)
  {
  }

  /** `String.prototype.includes`: does `needle` occur in `hay` at some offset? */
  function Includes(hay: string, needle: string): (r: bool)
    ensures r ==> |needle| <= |hay|
    decreases |hay|
  {
    needle <= hay || (|hay| > 0 && Includes(hay[1..], needle))
  }

  /** `Includes` agrees with the definition "some suffix of `hay` starts with `needle`". */
  lemma {:induction false} IncludesIffOccurs(hay: string, needle: string)
    ensures Includes(hay, needle) <==> exists i :: 0 <= i <= |hay| && needle <= hay[i..]
    decreases |hay|
  {
    if needle <= hay {
      assert hay[0..] == hay;
    } else if |hay| == 0 {
      forall i | 0 <= i <= |hay| ensures !(needle <= hay[i..]) {
        assert hay[i..] == hay;
      }
    } else {
      IncludesIffOccurs(hay[1..], needle);
      if Includes(hay[1..], needle) {
        var k :| 0 <= k <= |hay[1..]| && needle <= hay[1..][k..];
        assert hay[1..][k..] == hay[k + 1..];
      } else {
        forall i | 0 <= i <= |hay| ensures !(needle <= hay[i..]) {
          if i > 0 {
            assert hay[1..][i - 1..] == hay[i..];
          } else {
            assert hay[0..] == hay;
          }
        }
      }
    }
  }

  /** Every string includes the empty string, so an empty search term matches everything. */
  lemma IncludesEmpty(hay: string)
    ensures Includes(hay, [])
  {
  }
}

=== FILE: optional.dfy ===
/** The `T | null` and `T | undefined` values of JavaScript. */
module Optional {

  datatype Option<+T> = None | Some(value: T)
}
